=== FILE: README.md ===
# Pump maintenance dashboard — status lifecycle and fleet aggregation in Dafny

This project models the logic core of an industrial pump maintenance system:
a React front end (admin dashboard, technician dashboard, reports,
maintenance schedule, pump detail, page header) and a FastAPI back end
(pump and maintenance routes, registration and login, token checks, an
in-memory pump list). Almost all of the application's code is markup and HTTP/DB
plumbing; what is modelled here is its state transitions and derived counts:

- **Technician dashboard** (`TechnicianDashboard`): pumps advance around the
  fixed cycle Active → Maintenance → Offline → Active, with the pressure
  reading tied to the new status; tasks are marked Completed; three summary
  counters (the "open" badge of the task table is the same count as
  `activeTasks`). Closed enumerations are used here, as in the source's types.
- **Fleet aggregation** (`AdminDashboard`, `Reports`, `MaintenancePage`,
  `PumpDetail`, `Header`): status counts and rounded percentages, the
  reports page's second (inconsistent) set of counters, the
  "needs maintenance" filter and remove-by-id update, the history-to-timeline
  mapping, and the role configuration lookup. Statuses are free strings, as
  the pages compare them against literals. `FleetView` holds the pump record
  these pages share; `Seqs` holds `filter`/`filter(...).length` and their
  lemmas (order, multiplicities, permutation invariance, monotonicity).
- **Backend stores** (`PumpRoutes`, `MaintenanceRoutes`, `AuthRoutes`,
  `Auth`, `MemoryStore`): each route is a pure function from a store (a map
  from id to record, or a list for the in-memory store) to the new store and
  a result; HTTP errors 400/401/403/404 are `Http.Result` errors, and every
  error leaves the store as it was.

Every module verifies with `dafny verify` on all `.dfy` files together.

## Model

| member | source | states |
|---|---|---|
| TechnicianDashboard.IndexOf | frontend/src/pages/TechnicianDashboard.tsx:184-187 | every pump status occurs in the cycle, so its index is always a valid position |
| TechnicianDashboard.Next | frontend/src/pages/TechnicianDashboard.tsx:184-187 | an advance always changes the status |
| TechnicianDashboard.NextFollowsCycle | frontend/src/pages/TechnicianDashboard.tsx:183-187 | the successor of Active is Maintenance, of Maintenance is Offline, of Offline is Active |
| TechnicianDashboard.NextThriceIsIdentity | frontend/src/pages/TechnicianDashboard.tsx:184-187 | three advances return any status to itself |
| TechnicianDashboard.Advance | frontend/src/pages/TechnicianDashboard.tsx:187-188 | the advanced pump has the next status, shows "115 PSI" when that status is Active and "—" otherwise, and keeps id, name, location and last service date |
| TechnicianDashboard.HandleUpdateStatus | frontend/src/pages/TechnicianDashboard.tsx:182-190 | list length and order are kept; pumps with another id are unchanged; the targeted pump changes only status and pressure, taking the next status in the cycle and the reading "115 PSI" when that status is Active and "—" otherwise; an unknown id leaves the list unchanged |
| TechnicianDashboard.UpdateStatusKeepsPressureInvariant | frontend/src/pages/TechnicianDashboard.tsx:188 | "Active exactly when a reading is shown" is preserved by every advance |
| TechnicianDashboard.UpdateStatusThriceRestores | frontend/src/pages/TechnicianDashboard.tsx:184-189 | three advances of one id restore every status and every field but pressure; in a consistent list, non-running pumps are fully restored |
| TechnicianDashboard.HandleMarkComplete | frontend/src/pages/TechnicianDashboard.tsx:178-180 | tasks with the id become Completed with all other fields kept, other tasks are unchanged, and a list whose matching tasks are already Completed is returned as is |
| TechnicianDashboard.MarkCompleteIdempotent | frontend/src/pages/TechnicianDashboard.tsx:178-180 | marking the same id complete twice equals marking it once |
| TechnicianDashboard.CounterBounds | frontend/src/pages/TechnicianDashboard.tsx:174-176 | pendingMaint ≤ activeTasks ≤ number of tasks, and activePumps ≤ number of pumps |
| TechnicianDashboard.MarkCompleteOpenCount | frontend/src/pages/TechnicianDashboard.tsx:175-180 | the open-task count drops by exactly the number of open tasks carrying the id |
| TechnicianDashboard.MarkCompleteUniqueTask | frontend/src/pages/TechnicianDashboard.tsx:175-180 | with unique ids, completing an open task lowers the open count by one, and completing a finished task changes nothing |
| TechnicianDashboard.Step | frontend/src/pages/TechnicianDashboard.tsx:178-190 | marking a task complete never touches the pumps, advancing a pump never touches the tasks, and both keep list lengths |
| TechnicianDashboard.RunKeepsPressureInvariant | frontend/src/pages/TechnicianDashboard.tsx:178-190 | any sequence of button presses from a consistent state stays consistent |
| TechnicianDashboard.ReachableStatesKeepPressureInvariant | frontend/src/pages/TechnicianDashboard.tsx:48-53 | the initial pumps are consistent, so every reachable state shows a pressure exactly for the running pumps |
| AdminDashboard.FleetStats | frontend/src/pages/AdminDashboard.tsx:53-56 | total is the list length; each category count is at most the total; the three together are at most the total, and equal to it when every status is Active, Maintenance or Offline |
| AdminDashboard.RoundedPercent | frontend/src/pages/AdminDashboard.tsx:74-92 | a zero total gives 0; otherwise the result is the whole percent nearest to count/total with halves rounded up, and at most 100 |
| AdminDashboard.StatCards | frontend/src/pages/AdminDashboard.tsx:58-95 | four cards in order Total, Active, Under Maintenance, Offline; the total card shows the list length and 100%; each other card shows its category count and that count's rounded percentage of the total, hence at most the total and at most 100%, and 0% for an empty list |
| AdminDashboard.PercentagesSumNearHundred | frontend/src/pages/AdminDashboard.tsx:74-92 | when every pump is in one of the three categories, the three percentages add up to 99, 100 or 101 |
| AdminDashboard.FourPumpScenario | frontend/src/pages/AdminDashboard.tsx:53-95 | statuses Active, Maintenance, Offline, Active give the cards 4/100%, 2/50%, 1/25%, 1/25% |
| AdminDashboard.StatsPermutationInvariant | frontend/src/pages/AdminDashboard.tsx:53-56 | reordering the pump list changes neither the counts nor the cards |
| AdminDashboard.BackendStatusesMissCategories | frontend/src/pages/AdminDashboard.tsx:54-56 | for a list in the backend's vocabulary the maintenance and offline counts are 0, and any pump not "Active" is counted nowhere |
| AdminDashboard.UnderMaintenancePumpIsUncounted | frontend/src/pages/AdminDashboard.tsx:55 | a single "Under Maintenance" pump gives total 1 and zero in every category |
| AdminDashboard.FleetStatsCorrected | frontend/src/pages/AdminDashboard.tsx:53-56 | with both vocabularies recognised, the categories add up to the total for every list in either vocabulary, and agree with the page on its own vocabulary |
| AdminDashboard.CorrectedCountsUnderMaintenance | frontend/src/pages/AdminDashboard.tsx:55 | the corrected maintenance count is the "Maintenance" count plus the "Under Maintenance" count |
| Reports.ReportSummary | frontend/src/pages/Reports.tsx:24-27 | totalPumps is the list length, every other counter is at most that, and offlinePumps ≤ underMaintenance |
| Reports.UnderMaintenanceIsNotWorking | frontend/src/pages/Reports.tsx:26 | underMaintenance counts exactly the pumps whose status is not "working" (the "Inactive" test is redundant): the total less the working pumps |
| Reports.ActiveCountedTwice | frontend/src/pages/Reports.tsx:25-26 | activePumps + underMaintenance equals the total plus the number of "Active" pumps |
| Reports.ActivePlusMaintenanceExceedsTotal | frontend/src/pages/Reports.tsx:25-26 | one "Active" pump makes activePumps + underMaintenance exceed totalPumps |
| MaintenancePage.LoadMaintenancePumps | frontend/src/pages/Maintenance.tsx:21-30 | a failed fetch shows an empty list; otherwise the list holds exactly the fetched pumps whose status is not "working", each as often as fetched, and is never longer than the fetched list |
| MaintenancePage.LoadPreservesOrder | frontend/src/pages/Maintenance.tsx:24 | the shown list keeps the fetched order (loading distributes over concatenation) |
| MaintenancePage.HandleMaintain | frontend/src/pages/Maintenance.tsx:33-46 | a thrown request leaves the list; otherwise every entry with the id is removed and every other entry kept with its multiplicity; an id not in the list leaves it unchanged |
| MaintenancePage.MaintainIdempotent | frontend/src/pages/Maintenance.tsx:42 | removing an id twice equals removing it once |
| MaintenancePage.MaintainPreservesOrder | frontend/src/pages/Maintenance.tsx:42 | the entries around a removed one keep their order |
| PumpDetail.TimelineStatus | frontend/src/pages/PumpDetail.tsx:32 | the card status is "Completed" or "Pending", and "Completed" exactly when the history status is "Completed" |
| PumpDetail.TimelineStatusIdempotent | frontend/src/pages/PumpDetail.tsx:32 | normalising a normalised status changes nothing |
| PumpDetail.ToTimeline | frontend/src/pages/PumpDetail.tsx:29-33 | no history gives an empty timeline; otherwise one entry per item in order, keeping date and action, with a two-valued status |
| PumpDetail.TimelineOfConcatenation | frontend/src/pages/PumpDetail.tsx:29-33 | the timeline of a concatenated history is the concatenation of the timelines |
| Header.GetRoleConfig | frontend/src/components/common/Header.tsx:23-38 | "admin" gives Admin Dashboard/Administrator, "technician" gives Technician Dashboard/Technician, any other role gives Dashboard/Welcome back with the role itself as label |
| Header.TitleClassifiesRole | frontend/src/components/common/Header.tsx:23-38 | the title is one of three, generic exactly for roles outside the table, and the label equals the role exactly for those roles |
| Header.HeaderConfig | frontend/src/components/common/Header.tsx:47-48 | with no stored user, or a stored user without a role, the whole fallback (Dashboard, Welcome back) with an empty label is shown; otherwise the lookup of the stored role |
| Header.HeaderConfigAsWritten | frontend/src/components/common/Header.tsx:36-48 | with the lookup as written, the header has no configuration exactly when a stored user carries a role that is an inherited Object.prototype key; every other user gets the corrected configuration |
| Header.RoleConfigLookup | frontend/src/components/common/Header.tsx:37 | the property read finds an own entry exactly for the two roles, and an inherited member exactly for the other Object.prototype keys |
| Header.GetRoleConfigAsWritten | frontend/src/components/common/Header.tsx:36-38 | as written, a configuration is returned exactly for roles that are not inherited keys, and then it is the intended one |
| Header.ConstructorRoleHasNoTitle | frontend/src/components/common/Header.tsx:37 | the role "constructor" yields no configuration as written, but the generic title when corrected |
| Auth.VerifyAcceptsExactlyItsPassword | backend/app/auth.py:15-21 | a stored hash accepts exactly the password it was made from |
| Auth.CreateAccessToken | backend/app/auth.py:25-30 | the token carries the given subject and role and expires 3600 seconds (60 minutes) after issue |
| Auth.GetCurrentUser | backend/app/auth.py:34-52 | an undecodable token or one without subject is refused with 401 "Invalid or expired token"; otherwise the user is the subject with the token's role |
| Auth.RequireAdmin | backend/app/auth.py:56-62 | the user passes unchanged exactly when its role is "admin"; otherwise 403 |
| Auth.IssuedTokenIdentifiesUser | backend/app/auth.py:25-49 | a token issued for a name and role reads back as that user |
| Auth.AdminGateOnIssuedToken | backend/app/auth.py:25-62 | a token's user passes the admin gate exactly when the token was issued with role "admin" |
| AuthRoutes.Register | backend/app/routes/auth.py:14-32 | a taken username gives 400 with the store unchanged; otherwise exactly one user with the given name, email, role and hashed password is added and no other user changes |
| AuthRoutes.Login | backend/app/routes/auth.py:36-57 | unknown user and wrong password both give the same 401 "Invalid credentials"; otherwise a bearer token with the user's name and stored role, expiring in 60 minutes |
| AuthRoutes.RegisterThenLogin | backend/app/routes/auth.py:21-51 | after a successful registration, login with the same name and password succeeds and the token reads back as that user and role |
| AuthRoutes.FailedRegisterKeepsLogins | backend/app/routes/auth.py:16-19 | a refused registration changes no login outcome |
| PumpRoutes.AddPump | backend/app/routes/pump.py:18-30 | the table grows by exactly one pump with the given name and status under the fresh id; every other pump is unchanged |
| PumpRoutes.GetPumps | backend/app/routes/pump.py:36-39 | every stored pump is returned and nothing else; in a table keyed by pump id, exactly one pump per id |
| PumpRoutes.GetPumpById | backend/app/routes/pump.py:45-56 | an absent id gives 404; a present id gives that pump |
| PumpRoutes.DeletePump | backend/app/routes/pump.py:62-79 | an absent id gives 404 with the table unchanged; a present id removes only that pump |
| PumpRoutes.AddThenGet | backend/app/routes/pump.py:18-56 | a pump just added reads back by its id |
| PumpRoutes.DeleteThenGet | backend/app/routes/pump.py:45-74 | a deleted pump reads as 404, and deleting it again is a 404 that changes nothing |
| MaintenanceRoutes.ScheduleMaintenance | backend/app/routes/maintenance.py:24-49 | an unknown pump gives 404 and no change; otherwise exactly one record with the given pump, description and status is added and that pump, only, becomes "Under Maintenance" |
| MaintenanceRoutes.AfterUpdate | backend/app/routes/maintenance.py:72-77 | the pump becomes "Active" exactly on completion, then with the completion time as last maintenance date; otherwise "Under Maintenance" with the date kept |
| MaintenanceRoutes.UpdateMaintenanceStatus | backend/app/routes/maintenance.py:53-82 | an unknown record gives 404 and no change; otherwise the record takes the new status, the linked pump (if present) follows it, and no other pump or record changes |
| MaintenanceRoutes.GetMaintenanceByPump | backend/app/routes/maintenance.py:86-94 | exactly the records carrying that pump id |
| MaintenanceRoutes.DeleteMaintenance | backend/app/routes/maintenance.py:98-114 | an unknown record gives 404 and no change; otherwise only that record is removed and no pump changes |
| MaintenanceRoutes.ScheduleCompletedStillUnderMaintenance | backend/app/routes/maintenance.py:36-44 | scheduling a record already "Completed" still puts its pump under maintenance |
| MaintenanceRoutes.ScheduleThenGetByPump | backend/app/routes/maintenance.py:36-94 | a scheduled record is among its pump's records |
| MaintenanceRoutes.CompletedIsNotFinal | backend/app/routes/maintenance.py:68-77 | a completed record accepts any new status, and reopening it puts its pump back under maintenance |
| MaintenanceRoutes.DeleteThenGetByPump | backend/app/routes/maintenance.py:86-112 | a deleted record is no longer among its pump's records, and every other record of that pump still is |
| MaintenanceRoutes.ScheduleThenComplete | backend/app/routes/maintenance.py:36-75 | scheduling then completing a record makes its pump "Active" with the completion time |
| MemoryStore.AddPump | backend/app/main.py:22-29 | the request is appended with id len+1 whatever id it carried, earlier entries are unchanged, and the response returns the stored entry |
| MemoryStore.AddKeepsIdsArePositions | backend/app/main.py:24-25 | if every id is its position plus one, that stays true after an add |
| MemoryStore.SeedIdsArePositions | backend/app/main.py:6-9 | the seed entries have ids 1 and 2 |
| MemoryStore.ReachableIdsUnique | backend/app/main.py:6-25 | after any sequence of adds handled one at a time, ids are positions plus one, hence pairwise distinct, and each add adds one entry |
| MemoryStore.OverlappingAddsShareId | backend/app/main.py:22-25 | two adds that both read the length before either appends store one id twice, and ids then no longer equal positions plus one |
| MemoryStore.AddThenGet | backend/app/main.py:18-25 | after an add, the list served is the previous list followed by the new entry |

## Left out

- MemoryStore.ReachableIdsUnique: requests are modelled one at a time. `add_pump` is a synchronous handler, which FastAPI runs on a thread pool, and it reads `len(pumps_data) + 1` before it appends, so two overlapping POSTs can both store the same id (`MemoryStore.OverlappingAddsShareId` exhibits the resulting list). Likewise `AuthRoutes.Register` checks the username and then inserts, which refuses every duplicate only for requests that do not overlap, or if the users table has a unique index; `backend/app/models/user.py` is not part of this model, so neither is assumed.
- Header.HeaderConfig: composed with the corrected lookup; as written, an inherited-key role such as "constructor" gets no configuration and the header shows no title (see Findings; `Header.HeaderConfigAsWritten` models that composition).
- Rendering, styling, icons, navigation and sidebar state of every page; `Pumps.tsx` colour mapping; `Login.tsx` (timer, storage writes, routing).
- Network and storage: `fetch`, `localStorage`, `JSON.parse` and date formatting are outside the model; their outcomes are parameters (`Option` for a fetch or parse that fails, `requestThrew` for a request that throws, `now` for the clock).
- AdminDashboard.RoundedPercent: computes the exact rational half-up rounding; the page computes `Math.round((count / total) * 100)` in IEEE doubles, which can differ next to a half (29/200 evaluates to 14.499… and rounds to 14, where exact rounding gives 15).
- MaintenancePage.HandleMaintain: a request that settles with an HTTP error status does not throw, so the entry is still removed. No backend file defines the route it calls, `PUT /pumps/{id}/maintain`: `backend/app/main.py` mounts no routers and `backend/app/routes/pump.py` has no `/maintain`. So every click settles with an HTTP error, and the entry is removed only from the page's local list.
- JWT signing, decoding and expiry enforcement (the `jose` library): a token is represented by its claims, and a token that fails to decode is `None`.
- Auth.GetCurrentUser: the role claim is modelled as an optional string; any other JSON value in it is not modelled.
- Database behaviour: fresh ids are parameters with a freshness precondition; `created_at` defaults, commits, refreshes and foreign-key enforcement when deleting a pump that still has records are not modelled (the delete handler itself removes only the pump).
- The user table is keyed by username; the handlers look users up by username and registration refuses duplicates, so this loses nothing reachable through these routes called one at a time.
- Request validation before a handler runs (HTTP 422): password length 6–72, e-mail syntax, and the closed status literals; the status literals become enumerations (`PumpCreateStatus`, `MaintenanceStatus`), the other constraints are not modelled.
- `require_role` is imported but not defined anywhere in the code; each maintenance route's role gate is a precondition that the caller has the named role.
- `last_maintenance_date` is assigned by the maintenance update although the pump table has no such column; it is an optional field of the abstract pump record.
- MemoryStore.AddPump: the posted dictionary's entries other than `id` are modelled as strings; the handler accepts any JSON values.
- The in-memory store of `main.py` and the database-backed routes are two separate services; they are modelled separately.
- The failure-prediction model and its route (floating-point inference in an external library).
- Behaviour described for the system but absent from its code, which the model does not add: a terminal Completed state, rollback of optimistic updates, a one-in-flight-request-per-id guard, completion stamping a pump's last service date while leaving its status unchanged, and any pump update from the frontend's "Mark Complete". In the code, "Mark Complete" touches no pump, while the backend lets any maintenance status replace any other and, on completion, sets both the pump's last maintenance date and its status "Active" (modelled by `MaintenanceRoutes.AfterUpdate`).

## Findings

| source | as written | input that shows it | evidently intended | confidence | as-written member | corrected member |
|---|---|---|---|---|---|---|
| frontend/src/pages/AdminDashboard.tsx:55-56 | counts statuses "Maintenance" and "Offline", which the database-backed pump and maintenance routes never store (they store "Active", "Inactive", "Under Maintenance") | one pump with status "Under Maintenance": total 1, every category 0 | backend pumps under maintenance or inactive are counted on their cards | medium, not executed | AdminDashboard.BackendStatusesMissCategories | AdminDashboard.FleetStatsCorrected |
| frontend/src/components/common/Header.tsx:37 | `ROLE_CONFIG[role] ?? fallback` also finds members inherited from Object.prototype, which are not null, so the fallback is skipped | role "constructor": the header gets a function and shows no title | every role outside the table gets the generic configuration | low, not executed | Header.ConstructorRoleHasNoTitle | Header.GetRoleConfig |

=== FILE: admin_dashboard.dfy ===
/** The admin dashboard's fleet summary: per-status counts over the fetched
    pump list and the rounded percentage shown on each card. */
module AdminDashboard {
  import Seqs
  import opened FleetView
  import Wrappers

  predicate IsActive(p: FleetPump) { p.status == "Active" }
  predicate IsMaintenance(p: FleetPump) { p.status == "Maintenance" }
  predicate IsOffline(p: FleetPump) { p.status == "Offline" }

  /** The page's own status vocabulary. */
  predicate HasDashboardStatus(p: FleetPump)
  {
    p.status == "Active" || p.status == "Maintenance" || p.status == "Offline"
  }

  datatype Stats = Stats(total: nat, active: nat, maintenance: nat, offline: nat)

  /** `total`, `active`, `maintenance` and `offline` of the page. The three
      categories are exclusive, so together they never exceed the total. */
  function FleetStats(pumps: seq<FleetPump>): (s: Stats)
    ensures s.total == |pumps|
    ensures s.active <= s.total && s.maintenance <= s.total && s.offline <= s.total
    ensures s.active + s.maintenance + s.offline <= s.total
    ensures (forall i :: 0 <= i < |pumps| ==> HasDashboardStatus(pumps[i])) ==>
              s.active + s.maintenance + s.offline == s.total
  {
    Seqs.CountExclusive3(pumps, IsActive, IsMaintenance, IsOffline);
    Stats(|pumps|, Seqs.Count(pumps, IsActive), Seqs.Count(pumps, IsMaintenance),
          Seqs.Count(pumps, IsOffline))
  }

  /** `total ? Math.round((count / total) * 100) : 0`, with exact rational
      arithmetic: the nearest whole percent, halves rounded up. */
  function RoundedPercent(count: nat, total: nat): (r: nat)
    ensures total == 0 ==> r == 0
    ensures total > 0 ==> 2 * total * r <= 200 * count + total < 2 * total * (r + 1)
    ensures count <= total ==> r <= 100
  {
    if total == 0 then 0
    else
      HalfUpQuotient(count, total);
      (200 * count + total) / (2 * total)
  }

  /** The half-up quotient lies within half a unit of `100 * count / total`,
      and within 100 for a count no larger than the total. */
  lemma HalfUpQuotient(count: nat, total: nat)
    requires total > 0
    ensures var r := (200 * count + total) / (2 * total);
      && 2 * total * r <= 200 * count + total < 2 * total * (r + 1)
      && (count <= total ==> r <= 100)
  {
    var r := (200 * count + total) / (2 * total);
    RoundingBounds(200 * count + total, 2 * total);
    if count <= total {
      assert 2 * total * r < 2 * total * 101 by {
        assert 200 * count + total <= 2 * total * 100 + total;
      }
      CancelFactor(2 * total, r, 101);
    }
  }

  /** Quotient and remainder of floored division of naturals. */
  lemma RoundingBounds(a: nat, d: nat)
    requires d > 0
    ensures d * (a / d) <= a < d * (a / d + 1)
  {
    assert a == d * (a / d) + a % d;
  }

  /** Multiplication distributes over a sum of three. */
  lemma SumOfProducts(d: int, a: int, b: int, c: int)
    ensures d * (a + b + c) == d * a + d * b + d * c
  {
  }

  /** A positive factor can be cancelled from a strict inequality. */
  lemma CancelFactor(d: nat, a: int, b: int)
    requires d > 0 && d * a < d * b
    ensures a < b
  {
  }

  datatype StatCard = StatCard(title: string, value: nat, percentage: nat)

  /** The four cards of the `stats` array, in display order. */
  function StatCards(pumps: seq<FleetPump>): (cards: seq<StatCard>)
    ensures |cards| == 4
    ensures cards[0] == StatCard("Total Pumps", |pumps|, 100)
    ensures var s := FleetStats(pumps);
      && cards[1] == StatCard("Active Pumps", s.active, RoundedPercent(s.active, s.total))
      && cards[2] == StatCard("Under Maintenance", s.maintenance, RoundedPercent(s.maintenance, s.total))
      && cards[3] == StatCard("Offline Pumps", s.offline, RoundedPercent(s.offline, s.total))
    ensures forall i :: 1 <= i < 4 ==> cards[i].value <= |pumps| && cards[i].percentage <= 100
    ensures |pumps| == 0 ==> forall i :: 1 <= i < 4 ==> cards[i].percentage == 0
  {
    var s := FleetStats(pumps);
    [ StatCard("Total Pumps", s.total, 100),
      StatCard("Active Pumps", s.active, RoundedPercent(s.active, s.total)),
      StatCard("Under Maintenance", s.maintenance, RoundedPercent(s.maintenance, s.total)),
      StatCard("Offline Pumps", s.offline, RoundedPercent(s.offline, s.total)) ]
  }

  /** When every pump carries one of the page's three statuses, the three
      category percentages add up to 100 give or take one point of rounding. */
  lemma PercentagesSumNearHundred(pumps: seq<FleetPump>)
    requires |pumps| > 0
    requires forall i :: 0 <= i < |pumps| ==> HasDashboardStatus(pumps[i])
    ensures var cards := StatCards(pumps);
      99 <= cards[1].percentage + cards[2].percentage + cards[3].percentage <= 101
  {
    var s := FleetStats(pumps);
    var t := s.total;
    ThreeRoundedSharesNearHundred(t, s.active, s.maintenance, s.offline,
      RoundedPercent(s.active, t), RoundedPercent(s.maintenance, t), RoundedPercent(s.offline, t));
  }

  /** Three counts that make up the total, each rounded to the nearest percent,
      add up to 99, 100 or 101. */
  lemma ThreeRoundedSharesNearHundred(t: nat, c1: nat, c2: nat, c3: nat, r1: nat, r2: nat, r3: nat)
    requires t > 0 && c1 + c2 + c3 == t
    requires 2 * t * r1 <= 200 * c1 + t < 2 * t * (r1 + 1)
    requires 2 * t * r2 <= 200 * c2 + t < 2 * t * (r2 + 1)
    requires 2 * t * r3 <= 200 * c3 + t < 2 * t * (r3 + 1)
    ensures 99 <= r1 + r2 + r3 <= 101
  {
    var sum := r1 + r2 + r3;
    var d := 2 * t;
    SumOfProducts(d, r1, r2, r3);
    assert d * sum <= 200 * t + 3 * t;
    assert 200 * t + 3 * t < d * sum + 3 * d;
    assert t * (2 * sum) < t * 204 by { assert d * sum == t * (2 * sum); }
    assert t * 196 < t * (2 * sum) by { assert d * sum == t * (2 * sum); }
    CancelFactor(t, 2 * sum, 204);
    CancelFactor(t, 196, 2 * sum);
  }

  /** Four pumps, two running, one in maintenance, one offline. */
  const ScenarioPumps: seq<FleetPump> :=
    [FleetPump(1, "A", "Active", Wrappers.None), FleetPump(2, "B", "Maintenance", Wrappers.None),
     FleetPump(3, "C", "Offline", Wrappers.None), FleetPump(4, "D", "Active", Wrappers.None)]

  /** For those four pumps the cards read 4/100%, 2/50%, 1/25% and 1/25%. */
  lemma FourPumpScenario()
    ensures StatCards(ScenarioPumps) == [StatCard("Total Pumps", 4, 100), StatCard("Active Pumps", 2, 50),
                                         StatCard("Under Maintenance", 1, 25), StatCard("Offline Pumps", 1, 25)]
  {
    var cards := StatCards(ScenarioPumps);
    ScenarioCounts();
    QuarterPercentages();
    assert cards[0] == StatCard("Total Pumps", 4, 100);
    assert cards[1] == StatCard("Active Pumps", 2, 50);
    assert cards[2] == StatCard("Under Maintenance", 1, 25);
    assert cards[3] == StatCard("Offline Pumps", 1, 25);
  }

  /** Two and one out of four round to 50% and 25%. */
  lemma QuarterPercentages()
    ensures RoundedPercent(2, 4) == 50 && RoundedPercent(1, 4) == 25
  {
    assert (200 * 2 + 4) / (2 * 4) == 404 / 8 == 50;
    assert (200 * 1 + 4) / (2 * 4) == 204 / 8 == 25;
  }

  /** The scenario's counts, one pump at a time from the end of the list. */
  lemma ScenarioCounts()
    ensures FleetStats(ScenarioPumps) == Stats(4, 2, 1, 1)
  {
    var pumps := ScenarioPumps;
    assert pumps[1..][1..] == pumps[2..];
    assert pumps[2..][1..] == pumps[3..];
    assert pumps[3..][1..] == [];
    FleetStatsCons(pumps[3..]);
    FleetStatsCons(pumps[2..]);
    FleetStatsCons(pumps[1..]);
    FleetStatsCons(pumps);
  }

  /** The counts of a non-empty list: its head's contribution plus its tail's counts. */
  lemma FleetStatsCons(pumps: seq<FleetPump>)
    requires |pumps| > 0
    ensures var s, t, p := FleetStats(pumps), FleetStats(pumps[1..]), pumps[0];
      s == Stats(t.total + 1, t.active + (if IsActive(p) then 1 else 0),
                 t.maintenance + (if IsMaintenance(p) then 1 else 0), t.offline + (if IsOffline(p) then 1 else 0))
  {
    Seqs.CountCons(pumps, IsActive);
    Seqs.CountCons(pumps, IsMaintenance);
    Seqs.CountCons(pumps, IsOffline);
  }

  /** Reordering the fetched list changes neither the counts nor the cards. */
  lemma StatsPermutationInvariant(a: seq<FleetPump>, b: seq<FleetPump>)
    requires multiset(a) == multiset(b)
    ensures FleetStats(a) == FleetStats(b)
    ensures StatCards(a) == StatCards(b)
  {
    assert |a| == |multiset(a)| == |multiset(b)| == |b|;
    Seqs.CountPermutation(a, b, IsActive);
    Seqs.CountPermutation(a, b, IsMaintenance);
    Seqs.CountPermutation(a, b, IsOffline);
  }

  // The backend stores pump statuses as "Active", "Inactive" and
  // "Under Maintenance"; the page compares against "Maintenance" and "Offline".

  predicate HasBackendStatus(p: FleetPump)
  {
    p.status == "Active" || p.status == "Inactive" || p.status == "Under Maintenance"
  }

  /** As written, a list in the backend's vocabulary never shows a pump under
      maintenance or offline: the two cards are always zero, and every pump
      that is not "Active" is counted in no category. */
  lemma BackendStatusesMissCategories(pumps: seq<FleetPump>)
    requires forall i :: 0 <= i < |pumps| ==> HasBackendStatus(pumps[i])
    ensures FleetStats(pumps).maintenance == 0 && FleetStats(pumps).offline == 0
    ensures (exists i :: 0 <= i < |pumps| && pumps[i].status != "Active") ==>
              FleetStats(pumps).active + FleetStats(pumps).maintenance + FleetStats(pumps).offline
              < FleetStats(pumps).total
  {
    Seqs.FilterNone(pumps, IsMaintenance);
    Seqs.FilterNone(pumps, IsOffline);
    if exists i :: 0 <= i < |pumps| && pumps[i].status != "Active" {
      var i :| 0 <= i < |pumps| && pumps[i].status != "Active";
      var rest := pumps[..i] + pumps[i + 1..];
      assert pumps == pumps[..i] + [pumps[i]] + pumps[i + 1..];
      Seqs.FilterAppend(pumps[..i] + [pumps[i]], pumps[i + 1..], IsActive);
      Seqs.FilterAppend(pumps[..i], [pumps[i]], IsActive);
    }
  }

  /** A pump the backend reports as "Under Maintenance" lands on no card. */
  lemma UnderMaintenancePumpIsUncounted()
    ensures var s := FleetStats([FleetPump(1, "Pump B", "Under Maintenance", Wrappers.None)]);
      s.total == 1 && s.active == 0 && s.maintenance == 0 && s.offline == 0
  {
  }

  predicate InMaintenance(p: FleetPump) { p.status == "Maintenance" || p.status == "Under Maintenance" }
  predicate OutOfService(p: FleetPump) { p.status == "Offline" || p.status == "Inactive" }

  /** The counts with both vocabularies recognised. */
  function FleetStatsCorrected(pumps: seq<FleetPump>): (s: Stats)
    ensures s.total == |pumps|
    ensures s.active + s.maintenance + s.offline <= s.total
    ensures (forall i :: 0 <= i < |pumps| ==> HasDashboardStatus(pumps[i]) || HasBackendStatus(pumps[i])) ==>
              s.active + s.maintenance + s.offline == s.total
    ensures (forall i :: 0 <= i < |pumps| ==> HasDashboardStatus(pumps[i])) ==> s == FleetStats(pumps)
  {
    Seqs.CountExclusive3(pumps, IsActive, InMaintenance, OutOfService);
    CorrectionAgreesOnDashboardVocabulary(pumps);
    Stats(|pumps|, Seqs.Count(pumps, IsActive), Seqs.Count(pumps, InMaintenance),
          Seqs.Count(pumps, OutOfService))
  }

  /** On a list in the page's own vocabulary the correction changes nothing. */
  lemma CorrectionAgreesOnDashboardVocabulary(pumps: seq<FleetPump>)
    ensures (forall i :: 0 <= i < |pumps| ==> HasDashboardStatus(pumps[i])) ==>
              && Seqs.Filter(pumps, InMaintenance) == Seqs.Filter(pumps, IsMaintenance)
              && Seqs.Filter(pumps, OutOfService) == Seqs.Filter(pumps, IsOffline)
  {
    if forall i :: 0 <= i < |pumps| ==> HasDashboardStatus(pumps[i]) {
      Seqs.FilterExtensional(pumps, InMaintenance, IsMaintenance);
      Seqs.FilterExtensional(pumps, OutOfService, IsOffline);
    }
  }

  /** With the correction, every backend "Under Maintenance" pump is counted. */
  lemma CorrectedCountsUnderMaintenance(pumps: seq<FleetPump>)
    ensures FleetStatsCorrected(pumps).maintenance
            == Seqs.Count(pumps, IsMaintenance) + Seqs.Count(pumps, IsBackendMaintenance)
    decreases |pumps|
  {
    if |pumps| > 0 {
      CorrectedCountsUnderMaintenance(pumps[1..]);
    }
  }

  predicate IsBackendMaintenance(p: FleetPump) { p.status == "Under Maintenance" }
}

=== FILE: auth.dfy ===
/** Password handling, access-token claims, the current-user check and the
    admin gate of the backend. Tokens are represented by their decoded claims;
    signing and decoding are outside the model. */
module Auth {
  import opened Wrappers
  import opened Http

  const AccessTokenExpireMinutes: nat := 60

  /** Passwords are stored as given: hashing is the identity. */
  function HashPassword(password: string): string
  {
    password
  }

  function VerifyPassword(plain: string, stored: string): bool
  {
    plain == stored
  }

  /** A stored hash accepts exactly the password it was made from. */
  lemma VerifyAcceptsExactlyItsPassword(plain: string, password: string)
    ensures VerifyPassword(plain, HashPassword(password)) <==> plain == password
  {
  }

  /** The claims of a token: subject, role and expiry time (seconds). */
  datatype Claims = Claims(sub: Option<string>, role: Option<string>, exp: Option<int>)

  /** `create_access_token`: the given claims plus an expiry 60 minutes after
      issue time `now` (in seconds). */
  function CreateAccessToken(sub: Option<string>, role: Option<string>, now: int): (c: Claims)
    ensures c.sub == sub && c.role == role
    ensures c.exp.Some? && c.exp.value - now == 3600
  {
    Claims(sub, role, Some(now + AccessTokenExpireMinutes * 60))
  }

  datatype CurrentUser = CurrentUser(username: string, role: Option<string>)

  const InvalidToken := Unauthorized("Invalid or expired token")

  /** `get_current_user` on the decoded claims; `None` stands for a token that
      does not decode (bad signature, malformed, or expired). */
  function GetCurrentUser(decoded: Option<Claims>): (r: Result<CurrentUser>)
    ensures r.Err? <==> decoded.None? || decoded.value.sub.None?
    ensures r.Err? ==> r.error == InvalidToken && r.error.Code() == 401
    ensures r.Ok? ==> Some(r.value.username) == decoded.value.sub && r.value.role == decoded.value.role
  {
    match decoded
    case None => Err(InvalidToken)
    case Some(claims) =>
      match claims.sub
      case None => Err(InvalidToken)
      case Some(name) => Ok(CurrentUser(name, claims.role))
  }

  /** `require_admin`: the user passes unchanged exactly when the role is "admin". */
  function RequireAdmin(user: CurrentUser): (r: Result<CurrentUser>)
    ensures r.Ok? <==> user.role == Some("admin")
    ensures r.Ok? ==> r.value == user
    ensures r.Err? ==> r.error == Forbidden("Admin access required") && r.error.Code() == 403
  {
    if user.role != Some("admin") then Err(Forbidden("Admin access required")) else Ok(user)
  }

  /** A token issued for a name and role reads back as that user. */
  lemma IssuedTokenIdentifiesUser(name: string, role: Option<string>, now: int)
    ensures GetCurrentUser(Some(CreateAccessToken(Some(name), role, now))) == Ok(CurrentUser(name, role))
  {
  }

  /** A token passes the admin gate exactly when it was issued with role "admin". */
  lemma AdminGateOnIssuedToken(name: string, role: Option<string>, now: int)
    ensures var user := GetCurrentUser(Some(CreateAccessToken(Some(name), role, now)));
      user.Ok? && (RequireAdmin(user.value).Ok? <==> role == Some("admin"))
  {
    IssuedTokenIdentifiesUser(name, role, now);
  }
}

=== FILE: auth_routes.dfy ===
/** The `/auth` routes: registration and login over a user store keyed by
    username. */
module AuthRoutes {
  import opened Wrappers
  import opened Http
  import opened Auth

  datatype User = User(username: string, email: string, hashedPassword: string, role: string)
  datatype UserCreate = UserCreate(username: string, email: string, password: string, role: string)
  datatype TokenResponse = TokenResponse(accessToken: Claims, tokenType: string)

  type Users = map<string, User>

  /** Every stored user sits under its own username. */
  predicate WellKeyed(users: Users)
  {
    forall name :: name in users ==> users[name].username == name
  }

  const InvalidCredentials := Unauthorized("Invalid credentials")

  /** `register`: a taken username is refused with 400 and the store is left
      as it was; otherwise exactly one user is added. */
  function Register(users: Users, req: UserCreate): (r: Reply<Users, string>)
    ensures req.username in users <==> r.result.Err?
    ensures r.result.Err? ==> r.state == users && r.result.error == BadRequest("Username already exists")
    ensures r.result.Ok? ==>
              && r.state.Keys == users.Keys + {req.username}
              && |r.state| == |users| + 1
              && r.state[req.username] == User(req.username, req.email, HashPassword(req.password), req.role)
              && (forall name :: name in users ==> r.state[name] == users[name])
    ensures WellKeyed(users) ==> WellKeyed(r.state)
  {
    if req.username in users then
      Reply(users, Err(BadRequest("Username already exists")))
    else
      var added := users[req.username := User(req.username, req.email, HashPassword(req.password), req.role)];
      assert added.Keys == users.Keys + {req.username};
      Reply(added, Ok("User registered successfully"))
  }

  /** `login`: an unknown user and a wrong password are both refused with the
      same 401; otherwise a bearer token naming the user and its stored role. */
  function Login(users: Users, username: string, password: string, now: int): (r: Result<TokenResponse>)
    ensures r.Err? <==> username !in users || !VerifyPassword(password, users[username].hashedPassword)
    ensures r.Err? ==> r.error == InvalidCredentials && r.error.Code() == 401
    ensures r.Ok? ==>
              && r.value.tokenType == "bearer"
              && r.value.accessToken.sub == Some(users[username].username)
              && r.value.accessToken.role == Some(users[username].role)
              && r.value.accessToken.exp == Some(now + 3600)
  {
    if username !in users then Err(InvalidCredentials)
    else
      var user := users[username];
      if !VerifyPassword(password, user.hashedPassword) then Err(InvalidCredentials)
      else Ok(TokenResponse(CreateAccessToken(Some(user.username), Some(user.role), now), "bearer"))
  }

  /** A freshly registered user can log in with the registered password, and
      the token reads back as that user with the registered role. */
  lemma RegisterThenLogin(users: Users, req: UserCreate, now: int)
    requires Register(users, req).result.Ok?
    ensures var login := Login(Register(users, req).state, req.username, req.password, now);
      && login.Ok?
      && GetCurrentUser(Some(login.value.accessToken)) == Ok(CurrentUser(req.username, Some(req.role)))
  {
    VerifyAcceptsExactlyItsPassword(req.password, req.password);
  }

  /** A failed registration changes nothing a later login can observe. */
  lemma FailedRegisterKeepsLogins(users: Users, req: UserCreate, username: string, password: string, now: int)
    requires Register(users, req).result.Err?
    ensures Login(Register(users, req).state, username, password, now) == Login(users, username, password, now)
  {
  }
}

=== FILE: fleet_view.dfy ===
/** The pump record the admin pages receive from `GET /pumps`: the status is a
    free string, compared by the pages against literals. */
module FleetView {
  import opened Wrappers

  datatype FleetPump = FleetPump(id: int, name: string, status: string,
                                 lastMaintenanceDate: Option<string>)
}

=== FILE: header.dfy ===
/** The page header's title, subtitle and role label, looked up from the
    logged-in user's role with a fallback for unknown roles. */
module Header {
  import opened Wrappers

  datatype RoleConfig = RoleConfig(title: string, subtitle: string, displayRole: string)

  /** The user record read from browser storage; `role` may be missing. */
  datatype StoredUser = StoredUser(name: string, role: Option<string>)

  const AdminConfig := RoleConfig("Admin Dashboard", "Welcome back, monitor your systems", "Administrator")
  const TechnicianConfig :=
    RoleConfig("Technician Dashboard", "View and manage your assigned maintenance tasks", "Technician")

  /** The own entries of `ROLE_CONFIG`. */
  const RoleTable: map<string, RoleConfig> := map["admin" := AdminConfig, "technician" := TechnicianConfig]

  /** The configuration shown for a role other than the two known ones. */
  function Fallback(role: string): RoleConfig
  {
    RoleConfig("Dashboard", "Welcome back", role)
  }

  /** `getRoleConfig` looking only at the table's own entries. */
  function GetRoleConfig(role: string): (c: RoleConfig)
    ensures role == "admin" ==> c.title == "Admin Dashboard" && c.displayRole == "Administrator"
    ensures role == "technician" ==> c.title == "Technician Dashboard" && c.displayRole == "Technician"
    ensures role != "admin" && role != "technician" ==>
              c.title == "Dashboard" && c.subtitle == "Welcome back" && c.displayRole == role
  {
    if role in RoleTable then RoleTable[role] else Fallback(role)
  }

  /** Every role gets one of the three titles, the generic one exactly for the
      unknown roles, and the role label names the role. */
  lemma TitleClassifiesRole(role: string)
    ensures GetRoleConfig(role).title in {"Admin Dashboard", "Technician Dashboard", "Dashboard"}
    ensures GetRoleConfig(role).title == "Dashboard" <==> role !in RoleTable
    ensures role !in RoleTable <==> GetRoleConfig(role).displayRole == role
  {
  }

  /** `user?.role ?? ""`: the stored role, or the empty string. */
  function StoredRole(user: Option<StoredUser>): string
  {
    match user
    case None => ""
    case Some(u) => (match u.role case None => "" case Some(r) => r)
  }

  /** The header's configuration, `getRoleConfig(user?.role ?? "")`, composed
      with the corrected lookup. */
  function HeaderConfig(user: Option<StoredUser>): (c: RoleConfig)
    ensures user.None? ==> c == RoleConfig("Dashboard", "Welcome back", "")
    ensures user.Some? && user.value.role.None? ==> c == RoleConfig("Dashboard", "Welcome back", "")
    ensures user.Some? && user.value.role.Some? ==> c == GetRoleConfig(user.value.role.value)
  {
    GetRoleConfig(StoredRole(user))
  }

  // As written, `ROLE_CONFIG[role]` is a property read on a plain object, so
  // it also finds the members every object inherits from Object.prototype
  // (section 20.1.3 of ECMA-262 and its Annex B); those are not null, so the
  // `??` fallback is skipped and the header reads `title` of a function.

  const InheritedKeys: set<string> := {
    "constructor", "hasOwnProperty", "isPrototypeOf", "propertyIsEnumerable",
    "toLocaleString", "toString", "valueOf", "__proto__",
    "__defineGetter__", "__defineSetter__", "__lookupGetter__", "__lookupSetter__"
  }

  /** What the property read yields: an own entry, an inherited member, or nothing. */
  datatype Lookup = OwnEntry(config: RoleConfig) | InheritedMember(key: string) | Absent

  function RoleConfigLookup(role: string): (l: Lookup)
    ensures l.OwnEntry? <==> role in RoleTable
    ensures l.InheritedMember? <==> role !in RoleTable && role in InheritedKeys
  {
    if role in RoleTable then OwnEntry(RoleTable[role])
    else if role in InheritedKeys then InheritedMember(role)
    else Absent
  }

  /** What `getRoleConfig` returns as written: a configuration, or an
      inherited member whose `title`, `subtitle` and `displayRole` are undefined. */
  datatype AsWritten = Config(config: RoleConfig) | Undefined

  function GetRoleConfigAsWritten(role: string): (r: AsWritten)
    ensures r.Config? <==> role !in InheritedKeys || role in RoleTable
    ensures r.Config? ==> r.config == GetRoleConfig(role)
  {
    match RoleConfigLookup(role)
    case OwnEntry(c) => Config(c)
    case InheritedMember(_) => Undefined
    case Absent => Config(Fallback(role))
  }

  /** The header's configuration with the lookup as written: a stored role
      that is an inherited key leaves the header without a configuration, and
      every other user gets what the corrected composition gives. */
  function HeaderConfigAsWritten(user: Option<StoredUser>): (r: AsWritten)
    ensures r.Undefined? <==> user.Some? && user.value.role.Some? && user.value.role.value in InheritedKeys
    ensures r.Config? ==> r.config == HeaderConfig(user)
  {
    GetRoleConfigAsWritten(StoredRole(user))
  }

  /** A user whose role is "constructor" gets no title at all instead of the
      generic "Dashboard". */
  lemma ConstructorRoleHasNoTitle()
    ensures GetRoleConfigAsWritten("constructor").Undefined?
    ensures GetRoleConfig("constructor").title == "Dashboard"
  {
  }
}

=== FILE: http.dfy ===
/** Outcomes of the backend route handlers: a value, or the HTTPException the
    handler raises, with its status code and detail message. */
module Http {

  /** The HTTP errors the modelled handlers raise. */
  datatype HttpError =
    | BadRequest(detail: string)
    | Unauthorized(detail: string)
    | Forbidden(detail: string)
    | NotFound(detail: string)
  {
    /** The numeric status code sent to the client. */
    function Code(): nat
    {
      match this
      case BadRequest(_) => 400
      case Unauthorized(_) => 401
      case Forbidden(_) => 403
      case NotFound(_) => 404
    }
  }

  datatype Result<+T> = Ok(value: T) | Err(error: HttpError)

  /** What a handler leaves behind: the store after the call and the response. */
  datatype Reply<+S, +T> = Reply(state: S, result: Result<T>)
}

=== FILE: maintenance_page.dfy ===
/** The maintenance schedule page: the pumps that are not "working", and the
    list update after a "Mark Maintained" request. */
module MaintenancePage {
  import Seqs
  import opened Wrappers
  import opened FleetView

  predicate NeedsMaintenance(p: FleetPump) { p.status != "working" }

  /** Keeps the pumps that do not carry the given id. */
  function HasOtherId(id: int): FleetPump -> bool
  {
    (p: FleetPump) => p.id != id
  }

  /** The list shown after loading: the fetched pumps that are not "working",
      each with its original multiplicity; a failed fetch shows nothing. */
  function LoadMaintenancePumps(fetched: Option<seq<FleetPump>>): (shown: seq<FleetPump>)
    ensures fetched.None? ==> shown == []
    ensures fetched.Some? ==> |shown| <= |fetched.value|
    ensures forall i :: 0 <= i < |shown| ==> shown[i].status != "working"
    ensures fetched.Some? ==>
              forall x :: multiset(shown)[x] == if x.status != "working" then multiset(fetched.value)[x] else 0
  {
    match fetched
    case None => []
    case Some(data) =>
      Seqs.FilterMultiplicityAll(data, NeedsMaintenance);
      Seqs.Filter(data, NeedsMaintenance)
  }

  /** The loaded list keeps the fetched order: loading a concatenation is the
      concatenation of the two loaded parts. */
  lemma LoadPreservesOrder(a: seq<FleetPump>, b: seq<FleetPump>)
    ensures LoadMaintenancePumps(Some(a + b)) == LoadMaintenancePumps(Some(a)) + LoadMaintenancePumps(Some(b))
  {
    Seqs.FilterAppend(a, b, NeedsMaintenance);
  }

  /** `handleMaintain`: when the request settles, every entry with that id is
      removed and the rest keep their order; when it throws, the list stays. */
  function HandleMaintain(list: seq<FleetPump>, id: int, requestThrew: bool): (r: seq<FleetPump>)
    ensures requestThrew ==> r == list
    ensures |r| <= |list|
    ensures !requestThrew ==> forall i :: 0 <= i < |r| ==> r[i].id != id
    ensures !requestThrew ==> forall x :: multiset(r)[x] == if x.id != id then multiset(list)[x] else 0
    ensures (forall i :: 0 <= i < |list| ==> list[i].id != id) ==> r == list
  {
    if requestThrew then list
    else
      Seqs.FilterMultiplicityAll(list, HasOtherId(id));
      Seqs.FilterKeepsAllOrNot(list, HasOtherId(id));
      Seqs.Filter(list, HasOtherId(id))
  }

  /** Removing the same id twice is removing it once. */
  lemma MaintainIdempotent(list: seq<FleetPump>, id: int)
    ensures HandleMaintain(HandleMaintain(list, id, false), id, false) == HandleMaintain(list, id, false)
  {
    Seqs.FilterIdempotent(list, HasOtherId(id));
  }

  /** Removal keeps the order of the survivors around the removed entry. */
  lemma MaintainPreservesOrder(before: seq<FleetPump>, p: FleetPump, after: seq<FleetPump>)
    ensures HandleMaintain(before + [p] + after, p.id, false)
            == HandleMaintain(before, p.id, false) + HandleMaintain(after, p.id, false)
  {
    Seqs.FilterAppend(before + [p], after, HasOtherId(p.id));
    Seqs.FilterAppend(before, [p], HasOtherId(p.id));
  }
}

=== FILE: maintenance_routes.dfy ===
/** The `/maintenance` routes: scheduling and updating maintenance records,
    which drives the status of the pump a record refers to. The role gate of
    each route is a precondition on the caller. */
module MaintenanceRoutes {
  import opened Wrappers
  import opened Http
  import Auth
  import PumpRoutes

  /** Status values a create or update request may carry. */
  datatype MaintenanceStatus = Pending | InProgress | Completed
  {
    function Label(): string
    {
      match this
      case Pending => "Pending"
      case InProgress => "In Progress"
      case Completed => "Completed"
    }
  }

  datatype MaintenanceCreate = MaintenanceCreate(pumpId: int, description: string, status: MaintenanceStatus)

  datatype MaintenanceRecord = MaintenanceRecord(id: int, pumpId: int, description: string, status: string)

  /** The two tables the routes read and write. */
  datatype Db = Db(pumps: PumpRoutes.PumpTable, records: map<int, MaintenanceRecord>)

  predicate WellKeyed(db: Db)
  {
    && PumpRoutes.WellKeyed(db.pumps)
    && forall id :: id in db.records ==> db.records[id].id == id
  }

  predicate HasRole(caller: Auth.CurrentUser, role: string)
  {
    caller.role == Some(role)
  }

  const UnderMaintenance: string := "Under Maintenance"

  /** `schedule_maintenance`: 404 and no change for an unknown pump; otherwise
      one record is added under the fresh id `newId` and the pump is marked
      under maintenance, whatever status the record carries. */
  function ScheduleMaintenance(db: Db, req: MaintenanceCreate, newId: int, caller: Auth.CurrentUser)
    : (r: Reply<Db, MaintenanceRecord>)
    requires HasRole(caller, "technician")
    requires newId !in db.records
    ensures r.result.Err? <==> req.pumpId !in db.pumps
    ensures r.result.Err? ==> r.state == db && r.result.error == NotFound("Pump not found")
    ensures r.result.Ok? ==>
              && r.result.value == MaintenanceRecord(newId, req.pumpId, req.description, req.status.Label())
              && r.state.records.Keys == db.records.Keys + {newId}
              && r.state.records[newId] == r.result.value
              && (forall id :: id in db.records ==> r.state.records[id] == db.records[id])
              && r.state.pumps.Keys == db.pumps.Keys
              && r.state.pumps[req.pumpId] == db.pumps[req.pumpId].(status := UnderMaintenance)
              && (forall id :: id in db.pumps && id != req.pumpId ==> r.state.pumps[id] == db.pumps[id])
    ensures WellKeyed(db) ==> WellKeyed(r.state)
  {
    if req.pumpId !in db.pumps then Reply(db, Err(NotFound("Pump not found")))
    else
      var record := MaintenanceRecord(newId, req.pumpId, req.description, req.status.Label());
      var pump := db.pumps[req.pumpId];
      Reply(Db(db.pumps[req.pumpId := pump.(status := UnderMaintenance)], db.records[newId := record]), Ok(record))
  }

  /** The pump after an update of one of its records to `status` at time `now`. */
  function AfterUpdate(pump: PumpRoutes.Pump, status: MaintenanceStatus, now: int): (p: PumpRoutes.Pump)
    ensures p.id == pump.id && p.name == pump.name
    ensures p.status == "Active" <==> status == Completed
    ensures status == Completed ==> p.lastMaintenanceDate == Some(now)
    ensures status != Completed ==> p.status == UnderMaintenance && p.lastMaintenanceDate == pump.lastMaintenanceDate
  {
    if status == Completed then pump.(status := "Active", lastMaintenanceDate := Some(now))
    else pump.(status := UnderMaintenance)
  }

  /** `update_maintenance_status`: 404 and no change for an unknown record;
      otherwise the record takes the new status (from any status: Completed is
      not final) and, if its pump still exists, the pump follows it. */
  function UpdateMaintenanceStatus(db: Db, maintenanceId: int, status: MaintenanceStatus, now: int,
                                   caller: Auth.CurrentUser): (r: Reply<Db, MaintenanceRecord>)
    requires HasRole(caller, "technician")
    ensures r.result.Err? <==> maintenanceId !in db.records
    ensures r.result.Err? ==> r.state == db && r.result.error == NotFound("Maintenance record not found")
    ensures r.result.Ok? ==>
              && r.result.value == db.records[maintenanceId].(status := status.Label())
              && r.state.records == db.records[maintenanceId := r.result.value]
              && r.state.pumps.Keys == db.pumps.Keys
              && (forall id :: id in db.pumps && id != r.result.value.pumpId ==> r.state.pumps[id] == db.pumps[id])
              && (r.result.value.pumpId in db.pumps ==>
                    r.state.pumps[r.result.value.pumpId] == AfterUpdate(db.pumps[r.result.value.pumpId], status, now))
              && (r.result.value.pumpId !in db.pumps ==> r.state.pumps == db.pumps)
    ensures WellKeyed(db) ==> WellKeyed(r.state)
  {
    if maintenanceId !in db.records then Reply(db, Err(NotFound("Maintenance record not found")))
    else
      var record := db.records[maintenanceId].(status := status.Label());
      var pumps :=
        if record.pumpId in db.pumps
        then db.pumps[record.pumpId := AfterUpdate(db.pumps[record.pumpId], status, now)]
        else db.pumps;
      Reply(Db(pumps, db.records[maintenanceId := record]), Ok(record))
  }

  /** `get_maintenance_by_pump`: exactly the records of that pump. */
  function GetMaintenanceByPump(db: Db, pumpId: int, caller: Auth.CurrentUser): (found: set<MaintenanceRecord>)
    requires HasRole(caller, "technician")
    ensures forall id :: id in db.records && db.records[id].pumpId == pumpId ==> db.records[id] in found
    ensures forall m :: m in found ==> m.pumpId == pumpId && exists id :: id in db.records && db.records[id] == m
  {
    set id | id in db.records && db.records[id].pumpId == pumpId :: db.records[id]
  }

  /** `delete_maintenance`: 404 and no change for an unknown record; otherwise
      only that record goes and no pump changes. */
  function DeleteMaintenance(db: Db, maintenanceId: int, caller: Auth.CurrentUser): (r: Reply<Db, string>)
    requires HasRole(caller, "admin")
    ensures r.result.Ok? <==> maintenanceId in db.records
    ensures r.result.Err? ==> r.state == db && r.result.error == NotFound("Maintenance not found")
    ensures r.state.pumps == db.pumps
    ensures r.result.Ok? ==> r.state.records.Keys == db.records.Keys - {maintenanceId}
    ensures forall id :: id in db.records && id != maintenanceId ==>
              id in r.state.records && r.state.records[id] == db.records[id]
    ensures WellKeyed(db) ==> WellKeyed(r.state)
  {
    if maintenanceId !in db.records then Reply(db, Err(NotFound("Maintenance not found")))
    else Reply(db.(records := db.records - {maintenanceId}), Ok("Maintenance record deleted"))
  }

  /** A record created already "Completed" still leaves its pump under maintenance. */
  lemma ScheduleCompletedStillUnderMaintenance(db: Db, pumpId: int, description: string, newId: int,
                                               caller: Auth.CurrentUser)
    requires HasRole(caller, "technician") && newId !in db.records && pumpId in db.pumps
    ensures var r := ScheduleMaintenance(db, MaintenanceCreate(pumpId, description, Completed), newId, caller);
      r.state.records[newId].status == "Completed" && r.state.pumps[pumpId].status == UnderMaintenance
  {
  }

  /** A scheduled record is found among its pump's records. */
  lemma ScheduleThenGetByPump(db: Db, req: MaintenanceCreate, newId: int, caller: Auth.CurrentUser)
    requires HasRole(caller, "technician") && newId !in db.records && req.pumpId in db.pumps
    ensures var r := ScheduleMaintenance(db, req, newId, caller);
      r.result.value in GetMaintenanceByPump(r.state, req.pumpId, caller)
  {
  }

  /** Completion is not final: a completed record can be reopened, and its pump
      goes back under maintenance. */
  lemma CompletedIsNotFinal(db: Db, maintenanceId: int, status: MaintenanceStatus, now: int,
                            caller: Auth.CurrentUser)
    requires HasRole(caller, "technician")
    requires maintenanceId in db.records && db.records[maintenanceId].status == "Completed"
    ensures var r := UpdateMaintenanceStatus(db, maintenanceId, status, now, caller);
      && r.result.Ok?
      && r.state.records[maintenanceId].status == status.Label()
      && (status != Completed && db.records[maintenanceId].pumpId in db.pumps ==>
            r.state.pumps[db.records[maintenanceId].pumpId].status == UnderMaintenance)
  {
  }

  /** Scheduling and then completing a record puts its pump back in service,
      stamped with the completion time. */
  lemma ScheduleThenComplete(db: Db, req: MaintenanceCreate, newId: int, now: int, caller: Auth.CurrentUser)
    requires HasRole(caller, "technician") && newId !in db.records && req.pumpId in db.pumps
    ensures var s := ScheduleMaintenance(db, req, newId, caller);
      var u := UpdateMaintenanceStatus(s.state, newId, Completed, now, caller);
      && u.result.Ok?
      && u.state.pumps[req.pumpId].status == "Active"
      && u.state.pumps[req.pumpId].lastMaintenanceDate == Some(now)
      && u.state.records[newId].status == "Completed"
  {
  }

  /** A deleted record is no longer among its pump's records, and every other
      record of that pump still is. */
  lemma DeleteThenGetByPump(db: Db, maintenanceId: int, caller: Auth.CurrentUser)
    requires HasRole(caller, "admin")
    requires WellKeyed(db) && maintenanceId in db.records
    ensures var m := db.records[maintenanceId];
      var after := DeleteMaintenance(db, maintenanceId, caller).state;
      var found := GetMaintenanceByPump(after, m.pumpId, Auth.CurrentUser(caller.username, Some("technician")));
      && m !in found
      && forall id :: id in db.records && id != maintenanceId && db.records[id].pumpId == m.pumpId ==>
           db.records[id] in found
  {
  }
}

=== FILE: memory_store.dfy ===
/** The backend's first in-memory pump list: a Python list of dictionaries,
    served by `GET /pumps` and extended by `POST /pumps`. */
module MemoryStore {
  import opened Wrappers

  /** One dictionary of the list: its `id` entry, if any, and its other entries. */
  datatype PumpDict = PumpDict(id: Option<int>, fields: map<string, string>)

  datatype AddResponse = AddResponse(message: string, pump: PumpDict)

  const Seed: seq<PumpDict> := [
    PumpDict(Some(1), map["name" := "Pump A", "status" := "Active"]),
    PumpDict(Some(2), map["name" := "Pump B", "status" := "Under Maintenance"])
  ]

  /** `get_pumps`: the list itself. */
  function GetPumps(data: seq<PumpDict>): seq<PumpDict>
  {
    data
  }

  /** `add_pump`: the request gets id `len + 1`, replacing any id it carried,
      and is appended; the earlier entries stay as they were. */
  function AddPump(data: seq<PumpDict>, pump: PumpDict): (r: (seq<PumpDict>, AddResponse))
    ensures |r.0| == |data| + 1
    ensures r.0[..|data|] == data
    ensures r.0[|data|] == PumpDict(Some(|data| + 1), pump.fields)
    ensures r.1 == AddResponse("Pump added successfully", r.0[|data|])
  {
    var stored := pump.(id := Some(|data| + 1));
    (data + [stored], AddResponse("Pump added successfully", stored))
  }

  /** Every entry's id is its position plus one. */
  predicate IdsArePositions(data: seq<PumpDict>)
  {
    forall i :: 0 <= i < |data| ==> data[i].id == Some(i + 1)
  }

  /** Adding keeps ids equal to positions plus one. */
  lemma AddKeepsIdsArePositions(data: seq<PumpDict>, pump: PumpDict)
    requires IdsArePositions(data)
    ensures IdsArePositions(AddPump(data, pump).0)
  {
    var r := AddPump(data, pump).0;
    forall i | 0 <= i < |r| ensures r[i].id == Some(i + 1) {
      if i < |data| {
        assert r[i] == r[..|data|][i];
      }
    }
  }

  /** `add_pump` is a synchronous handler, so two requests can run at once on
      worker threads; reading `len + 1` and appending are separate steps. When
      both handlers read the length before either appends, the two stored
      entries share one id and ids no longer follow positions. */
  lemma OverlappingAddsShareId(data: seq<PumpDict>, a: PumpDict, b: PumpDict)
    ensures var id := |data| + 1;
      var r := data + [a.(id := Some(id)), b.(id := Some(id))];
      && r[|data|].id == r[|data| + 1].id == Some(|data| + 1)
      && !IdsArePositions(r)
  {
    var r := data + [a.(id := Some(|data| + 1)), b.(id := Some(|data| + 1))];
    assert r[|data| + 1].id != Some(|data| + 2);
  }

  /** The list after a sequence of `POST /pumps` requests on the seed. */
  function AddAll(data: seq<PumpDict>, requests: seq<PumpDict>): seq<PumpDict>
    decreases |requests|
  {
    if |requests| == 0 then data else AddAll(AddPump(data, requests[0]).0, requests[1..])
  }

  /** Starting from the seed and handling requests one at a time, ids stay
      equal to positions plus one, so no two entries ever share an id, and
      every request adds exactly one entry. */
  lemma {:induction false} ReachableIdsUnique(data: seq<PumpDict>, requests: seq<PumpDict>)
    requires IdsArePositions(data)
    ensures IdsArePositions(AddAll(data, requests))
    ensures |AddAll(data, requests)| == |data| + |requests|
    ensures var all := AddAll(data, requests);
      forall i, j :: 0 <= i < |all| && 0 <= j < |all| && i != j ==> all[i].id != all[j].id
    decreases |requests|
  {
    if |requests| > 0 {
      AddKeepsIdsArePositions(data, requests[0]);
      ReachableIdsUnique(AddPump(data, requests[0]).0, requests[1..]);
    }
  }

  lemma SeedIdsArePositions()
    ensures IdsArePositions(Seed)
  {
  }

  /** After adding, `get_pumps` shows the previous list followed by the new pump. */
  lemma AddThenGet(data: seq<PumpDict>, pump: PumpDict)
    ensures GetPumps(AddPump(data, pump).0) == GetPumps(data) + [AddPump(data, pump).1.pump]
  {
  }
}

=== FILE: pump_detail.dfy ===
/** The pump detail page's maintenance timeline, built from the pump's
    `maintenance_history`. */
module PumpDetail {
  import opened Wrappers

  datatype HistoryItem = HistoryItem(date: string, action: string, status: string)
  datatype TimelineEntry = TimelineEntry(date: string, action: string, status: string)

  /** The card status: "Completed" stays, anything else reads "Pending". */
  function TimelineStatus(status: string): (s: string)
    ensures s == "Completed" || s == "Pending"
    ensures s == "Completed" <==> status == "Completed"
  {
    if status == "Completed" then "Completed" else "Pending"
  }

  /** Normalising a status already normalised changes nothing. */
  lemma TimelineStatusIdempotent(status: string)
    ensures TimelineStatus(TimelineStatus(status)) == TimelineStatus(status)
  {
  }

  /** `(maintenance_history || []).map(...)`: one entry per history item, in
      order, keeping date and action; no history gives an empty timeline. */
  function ToTimeline(history: Option<seq<HistoryItem>>): (timeline: seq<TimelineEntry>)
    ensures history.None? ==> timeline == []
    ensures history.Some? ==> |timeline| == |history.value|
    ensures history.Some? ==> forall i :: 0 <= i < |timeline| ==>
              && timeline[i].date == history.value[i].date
              && timeline[i].action == history.value[i].action
              && (timeline[i].status == "Completed" <==> history.value[i].status == "Completed")
    ensures forall i :: 0 <= i < |timeline| ==>
              timeline[i].status == "Completed" || timeline[i].status == "Pending"
  {
    match history
    case None => []
    case Some(items) =>
      seq(|items|, i requires 0 <= i < |items| =>
        TimelineEntry(items[i].date, items[i].action, TimelineStatus(items[i].status)))
  }

  /** The timeline of a concatenated history is the concatenation of the timelines. */
  lemma TimelineOfConcatenation(a: seq<HistoryItem>, b: seq<HistoryItem>)
    ensures ToTimeline(Some(a + b)) == ToTimeline(Some(a)) + ToTimeline(Some(b))
  {
  }
}

=== FILE: pump_routes.dfy ===
/** The `/pumps` routes over an abstract pump table keyed by id. The pump's
    `last_maintenance_date` is an optional field here: the maintenance routes
    assign it although the table declares no such column. */
module PumpRoutes {
  import opened Wrappers
  import opened Http

  /** Status values a create request may carry. */
  datatype PumpCreateStatus = Active | Inactive | UnderMaintenance
  {
    function Label(): string
    {
      match this
      case Active => "Active"
      case Inactive => "Inactive"
      case UnderMaintenance => "Under Maintenance"
    }
  }

  datatype PumpCreate = PumpCreate(name: string, status: PumpCreateStatus)

  /** A stored pump; times are seconds. */
  datatype Pump = Pump(id: int, name: string, status: string, lastMaintenanceDate: Option<int>)

  type PumpTable = map<int, Pump>

  /** Every stored pump sits under its own id. */
  predicate WellKeyed(pumps: PumpTable)
  {
    forall id :: id in pumps ==> pumps[id].id == id
  }

  const PumpNotFound := NotFound("Pump not found")

  /** `add_pump`: the database chooses the fresh id `newId`; exactly one pump
      with the requested name and status is added, and no other changes. */
  function AddPump(pumps: PumpTable, req: PumpCreate, newId: int): (r: Reply<PumpTable, Pump>)
    requires newId !in pumps
    ensures r.result.Ok?
    ensures r.state.Keys == pumps.Keys + {newId} && |r.state| == |pumps| + 1
    ensures r.state[newId] == r.result.value
    ensures r.result.value.id == newId && r.result.value.name == req.name
    ensures r.result.value.status == req.status.Label()
    ensures forall id :: id in pumps ==> r.state[id] == pumps[id]
    ensures WellKeyed(pumps) ==> WellKeyed(r.state)
  {
    var pump := Pump(newId, req.name, req.status.Label(), None);
    var added := pumps[newId := pump];
    assert added.Keys == pumps.Keys + {newId};
    Reply(added, Ok(pump))
  }

  /** `get_pumps`: every stored pump and nothing else. */
  function GetPumps(pumps: PumpTable): (all: set<Pump>)
    ensures forall id :: id in pumps ==> pumps[id] in all
    ensures forall p :: p in all ==> exists id :: id in pumps && pumps[id] == p
    ensures WellKeyed(pumps) ==> |all| == |pumps| && forall p :: p in all ==> p.id in pumps && pumps[p.id] == p
  {
    var all := set id | id in pumps :: pumps[id];
    IdsOfPumps(pumps, all);
    all
  }

  /** In a well-keyed table, distinct ids hold distinct pumps, so there are as
      many pumps as ids. */
  lemma IdsOfPumps(pumps: PumpTable, all: set<Pump>)
    requires all == set id | id in pumps :: pumps[id]
    ensures WellKeyed(pumps) ==> |all| == |pumps|
  {
    if !WellKeyed(pumps) {
      return;
    }
    var ids := set p | p in all :: p.id;
    assert ids == pumps.Keys by {
      forall id | id in pumps ensures id in ids {
        assert pumps[id] in all;
      }
    }
    InjectiveImage(all);
  }

  /** Mapping pumps to their ids loses nothing when the ids differ. */
  lemma {:induction false} InjectiveImage(all: set<Pump>)
    requires forall p, q :: p in all && q in all && p.id == q.id ==> p == q
    ensures |set p | p in all :: p.id| == |all|
    decreases |all|
  {
    if all != {} {
      var p :| p in all;
      var rest := all - {p};
      InjectiveImage(rest);
      assert (set x | x in all :: x.id) == (set x | x in rest :: x.id) + {p.id};
    }
  }

  /** `get_pump_by_id`: the stored pump, or 404. */
  function GetPumpById(pumps: PumpTable, id: int): (r: Result<Pump>)
    ensures r.Ok? <==> id in pumps
    ensures r.Ok? ==> r.value == pumps[id]
    ensures r.Err? ==> r.error == PumpNotFound && r.error.Code() == 404
  {
    if id !in pumps then Err(PumpNotFound) else Ok(pumps[id])
  }

  /** `delete_pump`: 404 and no change for an unknown id; otherwise only that
      pump is removed. */
  function DeletePump(pumps: PumpTable, id: int): (r: Reply<PumpTable, string>)
    ensures r.result.Ok? <==> id in pumps
    ensures r.result.Err? ==> r.state == pumps && r.result.error == PumpNotFound
    ensures r.result.Ok? ==> r.state.Keys == pumps.Keys - {id} && |r.state| == |pumps| - 1
    ensures forall other :: other in pumps && other != id ==> other in r.state && r.state[other] == pumps[other]
    ensures WellKeyed(pumps) ==> WellKeyed(r.state)
  {
    if id !in pumps then Reply(pumps, Err(PumpNotFound))
    else
      var rest := pumps - {id};
      assert rest.Keys == pumps.Keys - {id};
      Reply(rest, Ok("Pump deleted successfully"))
  }

  /** A pump just added can be read back by its id. */
  lemma AddThenGet(pumps: PumpTable, req: PumpCreate, newId: int)
    requires newId !in pumps
    ensures GetPumpById(AddPump(pumps, req, newId).state, newId)
            == Ok(Pump(newId, req.name, req.status.Label(), None))
  {
  }

  /** A pump just deleted reads as 404, and deleting it again is a 404 that
      changes nothing. */
  lemma DeleteThenGet(pumps: PumpTable, id: int)
    requires id in pumps
    ensures GetPumpById(DeletePump(pumps, id).state, id).Err?
    ensures var again := DeletePump(DeletePump(pumps, id).state, id);
      again.result.Err? && again.state == DeletePump(pumps, id).state
  {
  }
}

=== FILE: reports.dfy ===
/** The reports page: four counters over the fetched pump list, using a
    status vocabulary ("working") different from the admin dashboard's. */
module Reports {
  import Seqs
  import opened FleetView
  import Wrappers

  predicate IsActiveOrWorking(p: FleetPump) { p.status == "Active" || p.status == "working" }
  predicate IsInactiveOrNotWorking(p: FleetPump) { p.status == "Inactive" || p.status != "working" }
  predicate IsOffline(p: FleetPump) { p.status == "Offline" }

  predicate IsNotWorking(p: FleetPump) { p.status != "working" }
  predicate IsWorking(p: FleetPump) { p.status == "working" }
  predicate IsActive(p: FleetPump) { p.status == "Active" }

  datatype Report = Report(totalPumps: nat, activePumps: nat, underMaintenance: nat, offlinePumps: nat)

  /** The `reportSummary` counters. Offline pumps are never "working", so they
      are all also counted as under maintenance. */
  function ReportSummary(pumps: seq<FleetPump>): (r: Report)
    ensures r.totalPumps == |pumps|
    ensures r.activePumps <= r.totalPumps && r.underMaintenance <= r.totalPumps
    ensures r.offlinePumps <= r.underMaintenance
  {
    Seqs.CountMonotone(pumps, IsOffline, IsInactiveOrNotWorking);
    Report(|pumps|, Seqs.Count(pumps, IsActiveOrWorking), Seqs.Count(pumps, IsInactiveOrNotWorking),
           Seqs.Count(pumps, IsOffline))
  }

  /** The "Inactive" disjunct adds nothing: the maintenance counter is the
      number of pumps whose status is not "working", so it is the total less
      the working pumps. */
  lemma UnderMaintenanceIsNotWorking(pumps: seq<FleetPump>)
    ensures ReportSummary(pumps).underMaintenance == Seqs.Count(pumps, IsNotWorking)
    ensures ReportSummary(pumps).underMaintenance == |pumps| - Seqs.Count(pumps, IsWorking)
  {
    Seqs.FilterExtensional(pumps, IsInactiveOrNotWorking, IsNotWorking);
    WorkingSplit(pumps);
  }

  lemma {:induction false} WorkingSplit(pumps: seq<FleetPump>)
    ensures Seqs.Count(pumps, IsNotWorking) + Seqs.Count(pumps, IsWorking) == |pumps|
    decreases |pumps|
  {
    if |pumps| > 0 {
      WorkingSplit(pumps[1..]);
    }
  }

  /** An "Active" pump is counted both as active and as under maintenance:
      the two counters add up to the total plus the number of "Active" pumps. */
  lemma {:induction false} ActiveCountedTwice(pumps: seq<FleetPump>)
    ensures ReportSummary(pumps).activePumps + ReportSummary(pumps).underMaintenance
            == |pumps| + Seqs.Count(pumps, IsActive)
    decreases |pumps|
  {
    if |pumps| > 0 {
      ActiveCountedTwice(pumps[1..]);
    }
  }

  /** One "Active" pump makes both counters 1 in a list of one. */
  lemma ActivePlusMaintenanceExceedsTotal()
    ensures var r := ReportSummary([FleetPump(1, "Pump A", "Active", Wrappers.None)]);
      r.activePumps + r.underMaintenance > r.totalPumps
  {
    ActiveCountedTwice([FleetPump(1, "Pump A", "Active", Wrappers.None)]);
  }
}

=== FILE: seqs.dfy ===
/** Order-preserving filtering and counting over sequences, the model of
    JavaScript's `array.filter(p)` and `array.filter(p).length`. */
module Seqs {

  /** The elements of `s` satisfying `p`, in their original order. */
  function Filter<T>(s: seq<T>, p: T -> bool): (r: seq<T>)
    ensures |r| <= |s|
    ensures forall i :: 0 <= i < |r| ==> p(r[i])
    ensures multiset(r) <= multiset(s)
    decreases |s|
  {
    if |s| == 0 then []
    else
      assert s == [s[0]] + s[1..];
      if p(s[0]) then [s[0]] + Filter(s[1..], p) else Filter(s[1..], p)
  }

  /** How many elements of `s` satisfy `p`. */
  function Count<T>(s: seq<T>, p: T -> bool): (n: nat)
    ensures n <= |s|
  {
    |Filter(s, p)|
  }

  /** A non-empty sequence's count is its head's contribution plus its tail's count. */
  lemma CountCons<T>(s: seq<T>, p: T -> bool)
    requires |s| > 0
    ensures Count(s, p) == (if p(s[0]) then 1 else 0) + Count(s[1..], p)
  {
  }

  /** Filtering distributes over concatenation: the relative order of the
      kept elements is the order they had in the input. */
  lemma {:induction false} FilterAppend<T>(a: seq<T>, b: seq<T>, p: T -> bool)
    ensures Filter(a + b, p) == Filter(a, p) + Filter(b, p)
    decreases |a|
  {
    if |a| == 0 {
      assert a + b == b;
    } else {
      assert (a + b)[0] == a[0];
      assert (a + b)[1..] == a[1..] + b;
      FilterAppend(a[1..], b, p);
    }
  }

  /** The filter keeps every occurrence of a satisfying element and no
      occurrence of any other. */
  lemma {:induction false} FilterMultiplicity<T>(s: seq<T>, p: T -> bool, x: T)
    ensures multiset(Filter(s, p))[x] == if p(x) then multiset(s)[x] else 0
    decreases |s|
  {
    if |s| > 0 {
      assert s == [s[0]] + s[1..];
      FilterMultiplicity(s[1..], p, x);
    }
  }

  /** A filter that keeps every element returns its input. */
  lemma {:induction false} FilterKeepsAll<T>(s: seq<T>, p: T -> bool)
    requires forall i :: 0 <= i < |s| ==> p(s[i])
    ensures Filter(s, p) == s
    decreases |s|
  {
    if |s| > 0 {
      FilterKeepsAll(s[1..], p);
      assert s == [s[0]] + s[1..];
    }
  }

  /** The multiplicity law of `FilterMultiplicity` for every element at once. */
  lemma FilterMultiplicityAll<T>(s: seq<T>, p: T -> bool)
    ensures forall x :: multiset(Filter(s, p))[x] == if p(x) then multiset(s)[x] else 0
  {
    forall x {
      FilterMultiplicity(s, p, x);
    }
  }

  /** A filter returns its input exactly when it keeps every element. */
  lemma FilterKeepsAllOrNot<T>(s: seq<T>, p: T -> bool)
    ensures (forall i :: 0 <= i < |s| ==> p(s[i])) ==> Filter(s, p) == s
  {
    if forall i :: 0 <= i < |s| ==> p(s[i]) {
      FilterKeepsAll(s, p);
    }
  }

  /** A filter that keeps no element returns the empty sequence. */
  lemma {:induction false} FilterNone<T>(s: seq<T>, p: T -> bool)
    requires forall i :: 0 <= i < |s| ==> !p(s[i])
    ensures Filter(s, p) == []
    decreases |s|
  {
    if |s| > 0 {
      FilterNone(s[1..], p);
    }
  }

  /** Filtering twice with the same predicate is filtering once. */
  lemma FilterIdempotent<T>(s: seq<T>, p: T -> bool)
    ensures Filter(Filter(s, p), p) == Filter(s, p)
  {
    FilterKeepsAll(Filter(s, p), p);
  }

  /** Two predicates that agree on every element select the same elements. */
  lemma {:induction false} FilterExtensional<T>(s: seq<T>, p: T -> bool, q: T -> bool)
    requires forall i :: 0 <= i < |s| ==> p(s[i]) == q(s[i])
    ensures Filter(s, p) == Filter(s, q)
    decreases |s|
  {
    if |s| > 0 {
      FilterExtensional(s[1..], p, q);
    }
  }

  /** A weaker predicate counts at least as many elements. */
  lemma {:induction false} CountMonotone<T>(s: seq<T>, p: T -> bool, q: T -> bool)
    requires forall i :: 0 <= i < |s| && p(s[i]) ==> q(s[i])
    ensures Count(s, p) <= Count(s, q)
    decreases |s|
  {
    if |s| > 0 {
      CountMonotone(s[1..], p, q);
    }
  }

  /** Counts depend only on the multiset of elements, not on their order. */
  lemma CountPermutation<T>(a: seq<T>, b: seq<T>, p: T -> bool)
    requires multiset(a) == multiset(b)
    ensures Count(a, p) == Count(b, p)
  {
    forall x
      ensures multiset(Filter(a, p))[x] == multiset(Filter(b, p))[x]
    {
      FilterMultiplicity(a, p, x);
      FilterMultiplicity(b, p, x);
    }
    assert multiset(Filter(a, p)) == multiset(Filter(b, p));
    assert |multiset(Filter(a, p))| == |Filter(a, p)|;
    assert |multiset(Filter(b, p))| == |Filter(b, p)|;
  }

  /** Three pairwise exclusive predicates together count at most every element,
      and exactly every element when each element satisfies one of them. */
  lemma {:induction false} CountExclusive3<T>(s: seq<T>, p: T -> bool, q: T -> bool, r: T -> bool)
    requires forall i :: 0 <= i < |s| ==> !(p(s[i]) && q(s[i])) && !(p(s[i]) && r(s[i])) && !(q(s[i]) && r(s[i]))
    ensures Count(s, p) + Count(s, q) + Count(s, r) <= |s|
    ensures (forall i :: 0 <= i < |s| ==> p(s[i]) || q(s[i]) || r(s[i])) ==>
              Count(s, p) + Count(s, q) + Count(s, r) == |s|
    decreases |s|
  {
    if |s| > 0 {
      CountExclusive3(s[1..], p, q, r);
    }
  }
}

=== FILE: technician_dashboard.dfy ===
/** The technician dashboard: assigned pumps whose status is advanced around a
    fixed cycle, maintenance tasks that can be marked complete, and the three
    counters shown in the summary cards. */
module TechnicianDashboard {
  import Seqs

  datatype PumpStatus = Active | Maintenance | Offline
  datatype Priority = Low | Medium | High
  datatype TaskStatus = Pending | InProgress | Completed

  datatype Pump = Pump(id: string, name: string, location: string, status: PumpStatus,
                       pressure: string, lastService: string)
  datatype Task = Task(id: string, pumpName: string, issue: string, priority: Priority,
                       status: TaskStatus)

  /** Pressure shown for a pump that has just returned to service. */
  const NominalPressure: string := "115 PSI"
  /** Placeholder shown when a pump has no pressure reading. */
  const NoReading: string := "—"

  /** The order in which "Update Status" moves a pump. */
  const Cycle: seq<PumpStatus> := [Active, Maintenance, Offline]

  /** Position of a status in the cycle; every status occurs in it, so the
      JavaScript `indexOf` never yields -1 here. */
  function IndexOf(s: PumpStatus): (i: nat)
    ensures i < |Cycle| && Cycle[i] == s
  {
    match s
    case Active => 0
    case Maintenance => 1
    case Offline => 2
  }

  /** The status that follows `s` in the cycle, wrapping at the end. */
  function Next(s: PumpStatus): (n: PumpStatus)
    ensures n != s
  {
    Cycle[(IndexOf(s) + 1) % |Cycle|]
  }

  /** The successor table the cycle encodes, stated independently of the index arithmetic. */
  lemma NextFollowsCycle()
    ensures Next(Active) == Maintenance
    ensures Next(Maintenance) == Offline
    ensures Next(Offline) == Active
  {
  }

  /** Three advances return every status to itself. */
  lemma NextThriceIsIdentity(s: PumpStatus)
    ensures Next(Next(Next(s))) == s
  {
  }

  /** A pump shows a reading exactly when it is running. */
  predicate PressureConsistent(p: Pump)
  {
    p.status == Active <==> p.pressure != NoReading
  }

  predicate PressureInvariant(pumps: seq<Pump>)
  {
    forall i :: 0 <= i < |pumps| ==> PressureConsistent(pumps[i])
  }

  /** One pump moved to its next status, its pressure tied to the new status. */
  function Advance(p: Pump): (q: Pump)
    ensures q.status == Next(p.status)
    ensures PressureConsistent(q)
    ensures q.status == Active ==> q.pressure == NominalPressure
    ensures q.id == p.id && q.name == p.name && q.location == p.location
    ensures q.lastService == p.lastService
  {
    var next := Next(p.status);
    p.(status := next, pressure := if next == Active then NominalPressure else NoReading)
  }

  /** "Update Status" on the pump card: every pump with the given id advances,
      every other pump is left as it was. */
  function HandleUpdateStatus(pumps: seq<Pump>, id: string): (r: seq<Pump>)
    ensures |r| == |pumps|
    ensures forall i :: 0 <= i < |pumps| && pumps[i].id != id ==> r[i] == pumps[i]
    ensures forall i :: 0 <= i < |pumps| && pumps[i].id == id ==>
              && r[i].status == Next(pumps[i].status)
              && r[i].pressure == (if r[i].status == Active then NominalPressure else NoReading)
              && r[i] == pumps[i].(status := r[i].status, pressure := r[i].pressure)
    ensures (forall i :: 0 <= i < |pumps| ==> pumps[i].id != id) ==> r == pumps
  {
    seq(|pumps|, i requires 0 <= i < |pumps| => if pumps[i].id == id then Advance(pumps[i]) else pumps[i])
  }

  /** Advancing keeps every pump's pressure tied to its status. */
  lemma UpdateStatusKeepsPressureInvariant(pumps: seq<Pump>, id: string)
    requires PressureInvariant(pumps)
    ensures PressureInvariant(HandleUpdateStatus(pumps, id))
  {
  }

  /** Three advances of the same pump restore every status, touch nothing but
      pressure, and restore the pressure too of a pump that was not running
      in a consistent list. */
  lemma {:induction false} UpdateStatusThriceRestores(pumps: seq<Pump>, id: string)
    ensures var r := HandleUpdateStatus(HandleUpdateStatus(HandleUpdateStatus(pumps, id), id), id);
      && |r| == |pumps|
      && (forall i :: 0 <= i < |pumps| ==> r[i] == pumps[i].(pressure := r[i].pressure))
      && (PressureInvariant(pumps) ==>
            forall i :: 0 <= i < |pumps| && pumps[i].status != Active ==> r[i] == pumps[i])
  {
    var a := HandleUpdateStatus(pumps, id);
    var b := HandleUpdateStatus(a, id);
    var c := HandleUpdateStatus(b, id);
    forall i | 0 <= i < |pumps|
      ensures c[i] == pumps[i].(pressure := c[i].pressure)
      ensures PressureInvariant(pumps) && pumps[i].status != Active ==> c[i] == pumps[i]
    {
      if pumps[i].id == id {
        NextThriceIsIdentity(pumps[i].status);
      }
    }
  }

  /** "Mark Complete": every task with the given id becomes Completed. */
  function HandleMarkComplete(tasks: seq<Task>, id: string): (r: seq<Task>)
    ensures |r| == |tasks|
    ensures forall i :: 0 <= i < |tasks| && tasks[i].id != id ==> r[i] == tasks[i]
    ensures forall i :: 0 <= i < |tasks| && tasks[i].id == id ==>
              r[i].status == Completed && r[i] == tasks[i].(status := Completed)
    ensures (forall i :: 0 <= i < |tasks| && tasks[i].id == id ==> tasks[i].status == Completed) ==> r == tasks
  {
    seq(|tasks|, i requires 0 <= i < |tasks| => if tasks[i].id == id then tasks[i].(status := Completed) else tasks[i])
  }

  /** Marking the same task complete twice is marking it once. */
  lemma MarkCompleteIdempotent(tasks: seq<Task>, id: string)
    ensures HandleMarkComplete(HandleMarkComplete(tasks, id), id) == HandleMarkComplete(tasks, id)
  {
  }

  predicate IsActivePump(p: Pump) { p.status == Active }
  predicate IsOpenTask(t: Task) { t.status != Completed }
  predicate IsUrgentOpenTask(t: Task) { t.priority == High && t.status != Completed }

  /** The three summary counters: running pumps, open tasks, open high-priority tasks. */
  function ActivePumps(pumps: seq<Pump>): nat { Seqs.Count(pumps, IsActivePump) }
  function ActiveTasks(tasks: seq<Task>): nat { Seqs.Count(tasks, IsOpenTask) }
  function PendingMaint(tasks: seq<Task>): nat { Seqs.Count(tasks, IsUrgentOpenTask) }

  /** The counters are nested: urgent open tasks are open tasks, and no counter
      exceeds the size of the list it counts. */
  lemma CounterBounds(pumps: seq<Pump>, tasks: seq<Task>)
    ensures PendingMaint(tasks) <= ActiveTasks(tasks) <= |tasks|
    ensures ActivePumps(pumps) <= |pumps|
  {
    Seqs.CountMonotone(tasks, IsUrgentOpenTask, IsOpenTask);
  }

  /** Selects the open tasks carrying one id. */
  function OpenWithId(id: string): Task -> bool
  {
    (t: Task) => t.id == id && t.status != Completed
  }

  /** Marking complete removes from the open-task count exactly the open tasks
      carrying that id. */
  lemma {:induction false} MarkCompleteOpenCount(tasks: seq<Task>, id: string)
    ensures ActiveTasks(HandleMarkComplete(tasks, id))
            == ActiveTasks(tasks) - Seqs.Count(tasks, OpenWithId(id))
    decreases |tasks|
  {
    if |tasks| > 0 {
      var r, rest := HandleMarkComplete(tasks, id), tasks[1..];
      assert r[1..] == HandleMarkComplete(rest, id);
      MarkCompleteOpenCount(rest, id);
      Seqs.CountCons(r, IsOpenTask);
      Seqs.CountCons(tasks, IsOpenTask);
      Seqs.CountCons(tasks, OpenWithId(id));
    }
  }

  /** With unique task ids, completing an open task lowers the open count by
      one, and completing a finished task changes nothing. */
  lemma MarkCompleteUniqueTask(tasks: seq<Task>, k: nat)
    requires k < |tasks|
    requires forall i :: 0 <= i < |tasks| && i != k ==> tasks[i].id != tasks[k].id
    ensures tasks[k].status != Completed ==>
              ActiveTasks(HandleMarkComplete(tasks, tasks[k].id)) == ActiveTasks(tasks) - 1
    ensures tasks[k].status == Completed ==> HandleMarkComplete(tasks, tasks[k].id) == tasks
  {
    MarkCompleteOpenCount(tasks, tasks[k].id);
    UniqueTaskOpenCount(tasks, k);
  }

  /** With unique ids, the open tasks carrying task k's id are task k or nothing. */
  lemma UniqueTaskOpenCount(tasks: seq<Task>, k: nat)
    requires k < |tasks|
    requires forall i :: 0 <= i < |tasks| && i != k ==> tasks[i].id != tasks[k].id
    ensures Seqs.Count(tasks, OpenWithId(tasks[k].id)) == if tasks[k].status != Completed then 1 else 0
  {
    var own := OpenWithId(tasks[k].id);
    var before, after := tasks[..k], tasks[k + 1..];
    assert tasks == before + [tasks[k]] + after;
    forall i | 0 <= i < |before| ensures !own(before[i]) {
      assert before[i] == tasks[i];
    }
    forall i | 0 <= i < |after| ensures !own(after[i]) {
      assert after[i] == tasks[k + 1 + i];
    }
    Seqs.FilterNone(before, own);
    Seqs.FilterNone(after, own);
    Seqs.FilterAppend(before + [tasks[k]], after, own);
    Seqs.FilterAppend(before, [tasks[k]], own);
    assert Seqs.Filter([tasks[k]], own) == if own(tasks[k]) then [tasks[k]] else [];
  }

  /** The dashboard's whole state: pump list and task list. */
  datatype Dashboard = Dashboard(pumps: seq<Pump>, tasks: seq<Task>)

  /** The two buttons a technician can press. */
  datatype Action = UpdateStatus(pumpId: string) | MarkComplete(taskId: string)

  /** Pressing one button. Completing a task never touches the pumps, and
      advancing a pump never touches the tasks. */
  function Step(d: Dashboard, a: Action): (e: Dashboard)
    ensures a.MarkComplete? ==> e.pumps == d.pumps
    ensures a.UpdateStatus? ==> e.tasks == d.tasks
    ensures |e.pumps| == |d.pumps| && |e.tasks| == |d.tasks|
  {
    match a
    case UpdateStatus(id) => d.(pumps := HandleUpdateStatus(d.pumps, id))
    case MarkComplete(id) => d.(tasks := HandleMarkComplete(d.tasks, id))
  }

  function Run(d: Dashboard, actions: seq<Action>): Dashboard
    decreases |actions|
  {
    if |actions| == 0 then d else Run(Step(d, actions[0]), actions[1..])
  }

  const SeedPumps: seq<Pump> := [
    Pump("1", "Pump A", "Sector 1", Active, "120 PSI", "2025-12-01"),
    Pump("2", "Pump B", "Sector 3", Maintenance, NoReading, "2025-11-20"),
    Pump("3", "Pump C", "Sector 5", Offline, NoReading, "2025-10-15"),
    Pump("4", "Pump D", "Sector 2", Active, "110 PSI", "2025-12-10")
  ]

  const SeedTasks: seq<Task> := [
    Task("t1", "Pump B", "Seal replacement required", High, InProgress),
    Task("t2", "Pump C", "Motor overheating detected", High, Pending),
    Task("t3", "Pump A", "Routine lubrication check", Low, Pending),
    Task("t4", "Pump D", "Pressure gauge calibration", Medium, Completed)
  ]

  const Seed: Dashboard := Dashboard(SeedPumps, SeedTasks)

  /** Any run of button presses keeps pressure tied to status. */
  lemma {:induction false} RunKeepsPressureInvariant(d: Dashboard, actions: seq<Action>)
    requires PressureInvariant(d.pumps)
    ensures PressureInvariant(Run(d, actions).pumps)
    ensures |Run(d, actions).pumps| == |d.pumps|
    decreases |actions|
  {
    if |actions| > 0 {
      if actions[0].UpdateStatus? {
        UpdateStatusKeepsPressureInvariant(d.pumps, actions[0].pumpId);
      }
      RunKeepsPressureInvariant(Step(d, actions[0]), actions[1..]);
    }
  }

  /** Every state reachable from the initial data shows a pressure exactly
      for the running pumps. */
  lemma ReachableStatesKeepPressureInvariant(actions: seq<Action>)
    ensures PressureInvariant(Run(Seed, actions).pumps)
    ensures |Run(Seed, actions).pumps| == 4
  {
    assert PressureInvariant(SeedPumps);
    RunKeepsPressureInvariant(Seed, actions);
  }
}

=== FILE: wrappers.dfy ===
/** The optional-value type used for absent fields, missing claims and failed
    fetches. */
module Wrappers {

  datatype Option<+T> = None | Some(value: T)
}
